=== FILE: README.md ===
# Catalogue logic of a steel-products storefront, in Dafny

The storefront is a Django site: categories of products nested through a
parent link, product and service pages, a filtered and paginated product
listing, and a JSON search endpoint. Most of it is framework glue. This
project models the few pieces of bespoke, sequential logic underneath, as
pure Dafny functions, loop methods and lemmas:

- **Pagination** — the window of at most five page numbers shown under a
  product listing (`ProductListView.get_context_data`).
- **CategoryTree** — the category table as a map from id to parent id,
  `Category.get_ancestors`, the descendant closure as a set, and the
  "similar categories" choice of the product listing.
- **CategoryClosure** — the parent-to-children map and the stack walk that
  collects a category's descendant ids (`CategoryDetailView.get_context_data`).
- **Text** — digit and whitespace classes, `str.strip()`, substring search
  and the case folding behind `icontains`.
- **AttributeParser** — `ProductDetailView.parse_product_name`: thickness,
  steel grade ("mark"), standard reference ("gost") and rolling type read
  from a product name with regular expressions.
- **Search** — `search_products`: products then categories whose name
  contains the query, or one "nothing found" record.
- **Slugs** — the slug loop of `Product.save` and `Service.save`: base,
  base-1, base-2, ... until one is free in that kind's table.
- **Wrappers** — `Option`, for nullable columns and missing matches.

The category table is `map<int, Option<int>>`. The schema lets a parent
link point to any category, even a descendant, and both the ancestor walk and the descendant walk
would run forever on a cycle, so every operation that walks the tree
requires `WellFormed(t)`: parent ids exist and some rank strictly decreases
from a child to its parent. That rank also gives the termination measures.
`SimilarCategories` looks only one and two levels up, so it requires just
`ParentsPresent(t)`.

Each regular expression of the parser is modelled by what its first match
captures. At a fixed start index each of them matches in exactly one way
that the regex engine can reach: each repeat is followed by a character
outside its class or ends the pattern, so the greedy run is the only one
that can succeed or the longest one, and backtracking never helps.
`MatchAt` computes that match and `FindFrom` finds the least start index. The lemmas
`ThicknessAtExact`, `MarkAtLongest` and `GostAtLongest` tie the scanner to
a declarative reading of each pattern.

The model follows the code as written, including these behaviours a
reader might not expect:

- The mark pattern `(Ст\d+[пс|кп]?)` uses a one-character class. "Ст3сп"
  therefore yields "Ст3с", not "Ст3сп" (see Findings).
- When a category has no siblings, the similar-categories fallback is the
  grandparent's children. That set includes the parent itself. When the
  parent is top-level, the result is `None`, not an empty collection.
- A blank query, or one with no matches, yields one `'none'` record rather
  than an empty list.

## Model

| member | source | states |
|---|---|---|
| `Pagination.PageWindow` | src/main/views.py:265-273 | with at most five pages the window is exactly pages 1..total; otherwise it is five consecutive ascending pages inside [1, total]; it contains the current page whenever that page is in range |
| `Pagination.PageWindowIsClampedCentre` | src/main/views.py:267-273 | for more than five pages the window starts at current-2 clamped into [1, total-4], so the current page is in the middle unless the window touches an end |
| `Pagination.PageWindowBoundaries` | src/main/views.py:268-273 | current page at most 3 gives pages 1-5; otherwise, within two of the last page gives the last five pages; otherwise current-2 .. current+2 |
| `Pagination.PageWindowSamples` | src/main/views.py:265-273 | sample windows: page 1 of 20 shows 1-5, page 20 of 20 shows 16-20, page 10 of 20 shows 8-12, page 2 of 3 shows 1-3 |
| `CategoryTree.Ancestors` | src/main/models.py:32-38 | the ancestor list is non-empty, ends with the category itself, starts at a category with no parent, and each element is the parent of the next; a top-level category gives exactly itself |
| `CategoryTree.GetAncestors` | src/main/models.py:32-38 | the walk that inserts each category at the front and moves to its parent ends, and returns the ancestor chain |
| `CategoryTree.AncestorsLength` | src/main/models.py:32-38 | the ancestor list has the category's depth plus one elements |
| `CategoryTree.RootChainUnique` | src/main/models.py:33-37 | any chain of parent links from a top-level category down to a category is the ancestor list, so the list is determined by the parent links alone |
| `CategoryTree.SubtreeClosed` | src/main/views.py:189-192 | a child of a category in the descendant closure is in the closure |
| `CategoryTree.SubtreeLeast` | src/main/views.py:186-192 | the closure is the least set holding the start category and closed under the child relation |
| `CategoryTree.LeafSubtree` | src/main/views.py:186-192 | a category with no children has exactly itself as its closure |
| `CategoryTree.SimilarCategories` | src/main/views.py:248-252 | other categories with the same parent, never the category itself; if there are none and the parent has a parent, the grandparent's children other than the category, the parent among them; `None` exactly when there are no siblings and the parent is top-level |
| `CategoryTree.SimilarFallbackHoldsParent` | src/main/views.py:250-252 | in an acyclic table the grandparent fallback always contains the category's own parent |
| `CategoryClosure.BuildChildrenMap` | src/main/views.py:178-183 | the map lists under each parent id exactly that parent's children, each once, whatever order the rows come in |
| `CategoryClosure.WalkStep` | src/main/views.py:189-192 | popping the top id, recording it and pushing its children keeps the walk's state: the popped id is new and in the closure, the stack stays free of repeats, and every child of a recorded id stays recorded or stacked |
| `CategoryClosure.DescendantIds` | src/main/views.py:186-192 | the stack walk ends on an acyclic table, and returns the start id together with exactly the ids whose ancestor chain passes through it; the result is closed under the child relation |
| `Text.Strip` | src/main/views.py:320 | the stripped query is a slice of the raw one with only Python whitespace cut off at either end, and has no whitespace at its ends; it is empty exactly when the query is all whitespace |
| `Text.Fold` | src/main/views.py:325 | case folding leaves no upper-case Latin or Russian letter and changes nothing else |
| `Text.FoldFollowsAlphabets` | src/main/views.py:325 | against the written-out alphabets A-Z/a-z and А-Я/а-я plus Ё/ё, every capital folds to the small letter at the same position |
| `Text.CapitalsAreUpper` | src/main/views.py:325 | the letters folding changes are exactly the capitals of those written-out alphabets |
| `Text.ContainsIgnoringCase` | src/main/views.py:325-338 | `name__icontains` (product filter at line 325, category filter at line 338): the query occurs in the name once both are folded, that is, some window of the name equals the query letter by letter after folding |
| `AttributeParser.FindFrom` | src/main/views.py:304-306 | the match returned is the one with the least start index; no start before it matches, and None means no start matches |
| `AttributeParser.ThicknessAtExact` | src/main/views.py:304 | the thickness pattern captures exactly a decimal number (digits, optionally a dot and digits) followed by optional whitespace and "мм" |
| `AttributeParser.MarkAtLongest` | src/main/views.py:305 | the mark pattern captures the longest "Ст", digits, optional one-letter suffix from п, с, the bar or к at that index, and nothing when no such text starts there |
| `AttributeParser.GostAtLongest` | src/main/views.py:306 | the standard pattern captures the longest "ГОСТ", optional whitespace, digits, dash, digits at that index, and nothing when no such text starts there |
| `AttributeParser.ProductType` | src/main/views.py:307-308 | hot-rolled exactly when that phrase occurs, even if the cold-rolled phrase also occurs; cold-rolled when only that phrase occurs; otherwise "Не указано" |
| `AttributeParser.ParseProductName` | src/main/views.py:302-315 | thickness always ends in " мм" and is "Не указано мм" when no thickness occurs; otherwise each field is the text of the leftmost match of its pattern; mark and gost are "Не указано" exactly when their pattern occurs nowhere |
| `AttributeParser.MarkTruncatesGrade` | src/main/views.py:305 | as written, a grade with a two-letter suffix (кп, пс, сп) is captured with only the first suffix letter, e.g. "Ст3сп" gives "Ст3с" |
| `AttributeParser.GradeKeepsSuffix` | src/main/views.py:305 | the corrected grade pattern captures such a grade whole |
| `Search.Hits` | src/main/views.py:325-348 | for either table (products at 325-335, categories at 338-348): one record per row whose name contains the query, ignoring case; every such row has its record, and every record is the record of such a row |
| `Search.MatchingRowsSelect` | src/main/views.py:325-348 | the positions `MatchingRows` lists are increasing and are exactly the rows whose name contains the query |
| `Search.HitsFollowRows` | src/main/views.py:326-348 | the k-th record is built from the k-th matching row |
| `Search.HitsInRowOrder` | src/main/views.py:325-348 | records appear in the order of the rows (for categories, sorted by name): some increasing list of positions picks exactly the matching rows, and record k comes from position k |
| `Search.ProductHits` | src/main/views.py:325-335 | the product search: as many records as matching products, each of type 'product' |
| `Search.CategoryHits` | src/main/views.py:338-348 | the category search: as many records as matching categories, each of type 'category' |
| `Search.SearchResults` | src/main/views.py:319-357 | the list is never empty; a blank query or no matches give exactly the one 'none' record, named "Ничего не найдено"; otherwise all product records come first, then all category records, and the length is the sum of the two match counts |
| `Slugs.NatToStringInjective` | src/main/models.py:72 | different counters render as different decimal strings |
| `Slugs.CandidateInjective` | src/main/models.py:68-72 | the base and base-k for different k are all different slugs |
| `Slugs.FirstFreeSlug` | src/main/models.py:67-75 | the slug chosen is not taken; it is the base when the base is free, and otherwise base-k with every earlier attempt taken |
| `Slugs.FirstFreeUnique` | src/main/models.py:69-73 | only one slug is the first free attempt, so the result is fully determined by the base and the taken set |
| `Slugs.AssignSlug` | src/main/models.py:68-75 | the save loop ends, because only finitely many attempts can be taken, and picks the first free attempt |
| `Slugs.SlugOnSave` | src/main/models.py:65-77 | a slug already set is kept and the loop is skipped; an unset one becomes the first free attempt against that kind's table |
| `Slugs.SlugOnSaveIgnoresOtherKind` | src/main/models.py:91-103 | a service's slug is checked against service slugs only, and a product's against product slugs only |
| `Slugs.SaveAll` | src/main/models.py:65-77 | records saved one after another with unset slugs get pairwise distinct slugs, none of them previously taken |
| `Slugs.NextAfterCollisions` | src/main/models.py:69-73 | when base and base-1 .. base-(n-1) are exactly the taken slugs, the next record gets base-n |

## Findings

| source | as written | input that shows it | evidently intended | confidence | as-written member | corrected member |
|---|---|---|---|---|---|---|
| src/main/views.py:305 | `[пс\|кп]?` is a one-character class (п, с, the bar, к), so at most one letter follows the digits | "Ст3сп" is captured as "Ст3с"; a bar right after the digits is captured as if it were a grade letter | keep a two-letter deoxidation suffix (кп, пс, сп) whole: `(Ст\d+(?:кп\|пс\|сп)?)` | medium, not executed | `AttributeParser.MarkTruncatesGrade` | `AttributeParser.GradeKeepsSuffix` |

`ParseProductName` models the page as it behaves, so it uses the pattern as
written. The corrected pattern is `Grade`. It is handled by the same
`MatchAt` and `FindFrom`.

## Left out

- Database access is not modelled: ORM queries, `prefetch_related`, `select_related`, `only`, `get_object_or_404`, cascade deletes and unique constraints. The rows a query returns are inputs.
- The search's joins (a product's category name, a category's parent name) are inputs too. Image URLs are the stored path, with an empty path read as null. The storage URL prefix is left out.
- The two caches are left out: the random products kept for 24 hours and the category product list kept for 15 minutes, plus `cache_page` (src/main/views.py:38-45, 152, 195-204). They are time-based and best-effort.
- Random ordering with `order_by('?')` is left out. It is nondeterministic SQL.
- `Paginator.get_page` clamping and the page and product counts are left out. They are framework behaviour. `PageWindow` takes the current page and the page count as inputs.
- The product filter (`ProductFilter`) is left out. Its file is not part of this model.
- `slugify` is a foreign library. The base slug is an input.
- Templates, the AJAX partial render via BeautifulSoup, `JsonResponse`, the redirect for a category without children, and the 404 page are left out. They are I/O and HTML.
- AttributeParser.ParseProductName: `\d` is narrowed to the ASCII digits. Python's `\d` also accepts every other Unicode decimal digit. `\s` is Python's full whitespace set.
- Text.Strip: the whitespace set is written out from Python's `str.isspace()` table and is not derived from the Unicode database.
- Text.Fold: `icontains` is modelled as substring search after folding Latin and Russian capitals only. Full Unicode case folding depends on the database backend and is left out. On SQLite, `LIKE` folds ASCII letters only, so there a Russian query matches case-sensitively.
- CategoryClosure.BuildChildrenMap: the order of each child list is not stated. The query inherits the category ordering by name (src/main/models.py:23), so each list follows name order, and categories with equal names come in an unspecified order. The closure is a set and does not depend on either order.
- CategoryTree.SimilarCategories: the result is a set. The two querysets it models are ordered by category name (src/main/models.py:23), and that order is not modelled.

=== FILE: attribute_parser.dfy ===
/**
 * Attributes read out of a free-text product name: thickness, steel grade
 * ("mark"), standard reference ("gost") and rolling type. Each regular
 * expression of the product page is modelled by the text its first match
 * captures; every one of them matches deterministically at a given start
 * index, because each repeat is followed by a character outside its class
 * or ends the pattern, so the greedy run is the match.
 */
module AttributeParser {
  import opened Wrappers
  import opened Text

  const NotSpecified: string := "Не указано"
  const Millimetres: string := " мм"
  const HotRolled: string := "горячекатаная"
  const ColdRolled: string := "холоднокатаная"

  /**
   * The patterns: `(\d+(\.\d+)?)\s*мм`, `(Ст\d+[пс|кп]?)`,
   * `(ГОСТ\s*\d+-\d+)`, and the grade pattern with a whole two-letter
   * deoxidation suffix, `(Ст\d+(?:кп|пс|сп)?)`.
   */
  datatype Pattern = Thickness | Mark | Gost | Grade

  /** The one-character class `[пс|кп]`: п, с, the bar itself, and к. */
  predicate IsMarkSuffix(c: char) {
    c == 'п' || c == 'с' || c == '|' || c == 'к'
  }

  /** `s[i..g]` is a decimal number: digits, optionally a dot and more digits. */
  ghost predicate IsDecimalAt(s: string, i: nat, g: nat)
    requires i <= g <= |s|
  {
    i < g &&
    (DigitsBetween(s, i, g) ||
     exists k | i < k < g - 1 :: s[k] == '.' && DigitsBetween(s, i, k) && DigitsBetween(s, k + 1, g))
  }

  /** The thickness pattern matches at `i` and captures `s[i..g]`. */
  ghost predicate IsThicknessAt(s: string, i: nat, g: nat)
    requires i <= g <= |s|
  {
    IsDecimalAt(s, i, g) && exists w | g <= w <= |s| :: SpacesBetween(s, g, w) && HasAt(s, w, "мм")
  }

  /** `s[i..e]` is text of the mark pattern. */
  ghost predicate IsMarkAt(s: string, i: nat, e: nat)
    requires i <= e <= |s|
  {
    HasAt(s, i, "Ст") && i + 2 < e &&
    (DigitsBetween(s, i + 2, e) || (i + 3 < e && DigitsBetween(s, i + 2, e - 1) && IsMarkSuffix(s[e - 1])))
  }

  /** `s[i..e]` is text of the standard-reference pattern. */
  ghost predicate IsGostAt(s: string, i: nat, e: nat)
    requires i <= e <= |s|
  {
    HasAt(s, i, "ГОСТ") &&
    exists a, b | i + 4 <= a < b && b + 1 < e :: SpacesBetween(s, i + 4, a) && DigitsBetween(s, a, b) && s[b] == '-' && DigitsBetween(s, b + 1, e)
  }

  function ThicknessAt(s: string, i: nat): Option<nat>
    requires i <= |s|
  {
    var d := DigitRunEnd(s, i);
    if d == i then None
    else
      var g := if d + 1 < |s| && s[d] == '.' && IsDigit(s[d + 1]) then DigitRunEnd(s, d + 1) else d;
      var w := SpaceRunEnd(s, g);
      if HasAt(s, w, "мм") then Some(g) else None
  }

  function MarkAt(s: string, i: nat): Option<nat>
    requires i <= |s|
  {
    if !HasAt(s, i, "Ст") then None
    else
      var d := DigitRunEnd(s, i + 2);
      if d == i + 2 then None
      else if d < |s| && IsMarkSuffix(s[d]) then Some(d + 1)
      else Some(d)
  }

  function GostAt(s: string, i: nat): Option<nat>
    requires i <= |s|
  {
    if !HasAt(s, i, "ГОСТ") then None
    else
      var a := SpaceRunEnd(s, i + 4);
      var b := DigitRunEnd(s, a);
      if b == a || b >= |s| || s[b] != '-' then None
      else
        var e := DigitRunEnd(s, b + 1);
        if e == b + 1 then None else Some(e)
  }

  function GradeAt(s: string, i: nat): Option<nat>
    requires i <= |s|
  {
    if !HasAt(s, i, "Ст") then None
    else
      var d := DigitRunEnd(s, i + 2);
      if d == i + 2 then None
      else if HasAt(s, d, "кп") || HasAt(s, d, "пс") || HasAt(s, d, "сп") then Some(d + 2)
      else Some(d)
  }

  /** End of the text captured by `p` when it matches at `i`. */
  function MatchAt(p: Pattern, s: string, i: nat): (r: Option<nat>)
    requires i <= |s|
    ensures r.Some? ==> i < r.value <= |s|
  {
    match p
    case Thickness => ThicknessAt(s, i)
    case Mark => MarkAt(s, i)
    case Gost => GostAt(s, i)
    case Grade => GradeAt(s, i)
  }

  /**
   * The first match of `p` at or after `i`, as (start, end of capture):
   * the match with the least start index, as `re.findall(...)[0]` gives.
   */
  function FindFrom(p: Pattern, s: string, i: nat): (r: Option<(nat, nat)>)
    requires i <= |s|
    ensures r.Some? ==> i <= r.value.0 < r.value.1 <= |s| && MatchAt(p, s, r.value.0) == Some(r.value.1)
    ensures r.Some? ==> forall j | i <= j < r.value.0 :: MatchAt(p, s, j).None?
    ensures r.None? ==> forall j | i <= j <= |s| :: MatchAt(p, s, j).None?
    decreases |s| - i
  {
    var m := MatchAt(p, s, i);
    if m.Some? then Some((i, m.value))
    else if i == |s| then None
    else
      var r := FindFrom(p, s, i + 1);
      assert forall j | i + 1 <= j <= |s| && r.None? :: MatchAt(p, s, j).None?;
      r
  }

  /** The first text captured by `p` in `s`, or the "not specified" sentinel. */
  function FirstCapture(p: Pattern, s: string): (r: string)
    ensures r == NotSpecified <==> FindFrom(p, s, 0).None?
  {
    match FindFrom(p, s, 0)
    case Some((a, e)) =>
      CaptureIsNotSentinel(p, s, a, e);
      s[a..e]
    case None => NotSpecified
  }

  /** No captured text equals the sentinel: every capture starts with a digit, "Ст" or "ГОСТ". */
  lemma CaptureIsNotSentinel(p: Pattern, s: string, a: nat, e: nat)
    requires a <= e <= |s| && MatchAt(p, s, a) == Some(e)
    ensures s[a..e] != NotSpecified
  {
    assert NotSpecified[0] == 'Н';
    if p == Thickness {
      assert IsDigit(s[a]);
    } else if p == Gost {
      assert s[a..e][0] == s[a..a + 4][0];
    } else {
      assert s[a..e][0] == s[a..a + 2][0];
    }
  }

  /** The parsed attributes, each with its sentinel default. */
  datatype ParsedName = ParsedName(thickness: string, mark: string, gost: string, productType: string)

  /** The rolling type: the hot-rolled phrase wins over the cold-rolled one. */
  function ProductType(name: string): (r: string)
    ensures r == HotRolled <==> Occurs(HotRolled, name)
    ensures r == ColdRolled <==> !Occurs(HotRolled, name) && Occurs(ColdRolled, name)
    ensures r == NotSpecified <==> !Occurs(HotRolled, name) && !Occurs(ColdRolled, name)
  {
    if Occurs(HotRolled, name) then HotRolled
    else if Occurs(ColdRolled, name) then ColdRolled
    else NotSpecified
  }

  /** No thickness text occurs anywhere in `name`. */
  ghost predicate NoThickness(name: string) {
    forall j, h | 0 <= j <= h <= |name| :: !IsThicknessAt(name, j, h)
  }

  /** `name[a..g]` is the thickness captured by the match with the least start index. */
  ghost predicate FirstThickness(name: string, a: nat, g: nat) {
    && a < g <= |name|
    && IsThicknessAt(name, a, g)
    && forall j, h | 0 <= j < a && j <= h <= |name| :: !IsThicknessAt(name, j, h)
  }

  /** No mark text occurs anywhere in `name`. */
  ghost predicate NoMark(name: string) {
    forall j, e | 0 <= j <= e <= |name| :: !IsMarkAt(name, j, e)
  }

  /** `name[a..e]` is the longest mark text at the least start index where one occurs. */
  ghost predicate FirstMark(name: string, a: nat, e: nat) {
    && a < e <= |name|
    && IsMarkAt(name, a, e)
    && (forall e' | e < e' <= |name| :: !IsMarkAt(name, a, e'))
    && forall j, h | 0 <= j < a && j <= h <= |name| :: !IsMarkAt(name, j, h)
  }

  /** No standard-reference text occurs anywhere in `name`. */
  ghost predicate NoGost(name: string) {
    forall j, e | 0 <= j <= e <= |name| :: !IsGostAt(name, j, e)
  }

  /** `name[a..e]` is the longest standard-reference text at the least start index where one occurs. */
  ghost predicate FirstGost(name: string, a: nat, e: nat) {
    && a < e <= |name|
    && IsGostAt(name, a, e)
    && (forall e' | e < e' <= |name| :: !IsGostAt(name, a, e'))
    && forall j, h | 0 <= j < a && j <= h <= |name| :: !IsGostAt(name, j, h)
  }

  /** The four attributes read from a product name, as the product page shows them. */
  function ParseProductName(name: string): (r: ParsedName)
    ensures |r.thickness| >= |Millimetres| && r.thickness[|r.thickness| - |Millimetres|..] == Millimetres
    ensures NoThickness(name) ==> r.thickness == NotSpecified + Millimetres
    ensures !NoThickness(name) ==> exists a: nat, g: nat | a < g <= |name| :: FirstThickness(name, a, g) && r.thickness == name[a..g] + Millimetres
    ensures NoMark(name) <==> r.mark == NotSpecified
    ensures !NoMark(name) ==> exists a: nat, e: nat | a < e <= |name| :: FirstMark(name, a, e) && r.mark == name[a..e]
    ensures NoGost(name) <==> r.gost == NotSpecified
    ensures !NoGost(name) ==> exists a: nat, e: nat | a < e <= |name| :: FirstGost(name, a, e) && r.gost == name[a..e]
    ensures r.productType == ProductType(name)
  {
    ThicknessFirstMatch(name);
    MarkFirstMatch(name);
    GostFirstMatch(name);
    var t := FirstCapture(Thickness, name) + Millimetres;
    assert t[|t| - |Millimetres|..] == Millimetres;
    ParsedName(t, FirstCapture(Mark, name), FirstCapture(Gost, name), ProductType(name))
  }

  /** The thickness pattern captures `s[i..g]` exactly when that is a decimal followed by optional whitespace and "мм". */
  lemma ThicknessAtExact(s: string, i: nat, g: nat)
    requires i <= g <= |s|
    ensures ThicknessAt(s, i) == Some(g) <==> IsThicknessAt(s, i, g)
  {
    if ThicknessAt(s, i) == Some(g) {
      ThicknessAtSound(s, i, g);
    }
    if IsThicknessAt(s, i, g) {
      ThicknessAtComplete(s, i, g);
    }
  }

  lemma ThicknessAtSound(s: string, i: nat, g: nat)
    requires i <= g <= |s| && ThicknessAt(s, i) == Some(g)
    ensures IsThicknessAt(s, i, g)
  {
    var d := DigitRunEnd(s, i);
    var w := SpaceRunEnd(s, g);
    assert SpacesBetween(s, g, w) && HasAt(s, w, "мм");
    if g != d {
      assert s[d] == '.' && DigitsBetween(s, i, d) && DigitsBetween(s, d + 1, g);
    }
  }

  lemma ThicknessAtComplete(s: string, i: nat, g: nat)
    requires i <= g <= |s| && IsThicknessAt(s, i, g)
    ensures ThicknessAt(s, i) == Some(g)
  {
    var w :| g <= w <= |s| && SpacesBetween(s, g, w) && HasAt(s, w, "мм");
    assert s[w] == "мм"[0];
    assert g < |s| && !IsDigit(s[g]) && s[g] != '.';
    SpaceRunEndUnique(s, g, w);
    assert SpaceRunEnd(s, g) == w;
    if DigitsBetween(s, i, g) {
      DigitRunEndUnique(s, i, g);
      assert DigitRunEnd(s, i) == g;
    } else {
      var k :| i < k < g - 1 && s[k] == '.' && DigitsBetween(s, i, k) && DigitsBetween(s, k + 1, g);
      FractionEnd(s, i, k, g);
    }
  }

  /** With a fraction, the integer run stops at the dot and the fraction run at `g`. */
  lemma FractionEnd(s: string, i: nat, k: nat, g: nat)
    requires i < k < g - 1 && g < |s| && !IsDigit(s[g])
    requires s[k] == '.' && DigitsBetween(s, i, k) && DigitsBetween(s, k + 1, g)
    ensures DigitRunEnd(s, i) == k && k + 1 < |s| && IsDigit(s[k + 1]) && DigitRunEnd(s, k + 1) == g
  {
    DigitRunEndUnique(s, i, k);
    DigitRunEndUnique(s, k + 1, g);
  }

  /** The mark pattern captures the longest text of the pattern at `i`, if there is any. */
  lemma MarkAtLongest(s: string, i: nat)
    requires i <= |s|
    ensures MarkAt(s, i).Some? ==> IsMarkAt(s, i, MarkAt(s, i).value)
    ensures forall e | i <= e <= |s| && IsMarkAt(s, i, e) :: MarkAt(s, i).Some? && e <= MarkAt(s, i).value
  {
    forall e | i <= e <= |s| && IsMarkAt(s, i, e)
      ensures MarkAt(s, i).Some? && e <= MarkAt(s, i).value
    {
      assert IsDigit(s[i + 2]);
      var d := DigitRunEnd(s, i + 2);
      if DigitsBetween(s, i + 2, e) {
        DigitRunEndCovers(s, i + 2, e);
      } else {
        DigitRunEndUnique(s, i + 2, e - 1);
      }
    }
  }

  /** The standard-reference pattern captures the longest text of the pattern at `i`, if there is any. */
  lemma GostAtLongest(s: string, i: nat)
    requires i <= |s|
    ensures GostAt(s, i).Some? ==> IsGostAt(s, i, GostAt(s, i).value)
    ensures forall e | i <= e <= |s| && IsGostAt(s, i, e) :: GostAt(s, i).Some? && e <= GostAt(s, i).value
  {
    if GostAt(s, i).Some? {
      var a := SpaceRunEnd(s, i + 4);
      var b := DigitRunEnd(s, a);
      assert SpacesBetween(s, i + 4, a) && DigitsBetween(s, a, b);
    }
    forall e | i <= e <= |s| && IsGostAt(s, i, e)
      ensures GostAt(s, i).Some? && e <= GostAt(s, i).value
    {
      var a, b :| i + 4 <= a < b && b + 1 < e && SpacesBetween(s, i + 4, a) && DigitsBetween(s, a, b) && s[b] == '-' && DigitsBetween(s, b + 1, e);
      assert IsDigit(s[a]);
      SpaceRunEndUnique(s, i + 4, a);
      DigitRunEndUnique(s, a, b);
      DigitRunEndCovers(s, b + 1, e);
    }
  }

  /** The first thickness match found by scanning is the declarative first one. */
  lemma ThicknessFirstMatch(name: string)
    ensures FindFrom(Thickness, name, 0).None? ==> NoThickness(name)
    ensures FindFrom(Thickness, name, 0).Some? ==>
      FirstThickness(name, FindFrom(Thickness, name, 0).value.0, FindFrom(Thickness, name, 0).value.1)
  {
    var r := FindFrom(Thickness, name, 0);
    if r.None? {
      forall j, h | 0 <= j <= h <= |name|
        ensures !IsThicknessAt(name, j, h)
      {
        assert MatchAt(Thickness, name, j).None?;
        ThicknessAtExact(name, j, h);
      }
    } else {
      var a := r.value.0;
      var g := r.value.1;
      ThicknessAtExact(name, a, g);
      forall j, h | 0 <= j < a && j <= h <= |name|
        ensures !IsThicknessAt(name, j, h)
      {
        assert MatchAt(Thickness, name, j).None?;
        ThicknessAtExact(name, j, h);
      }
    }
  }

  /** The first mark match found by scanning is the declarative first one. */
  lemma MarkFirstMatch(name: string)
    ensures FindFrom(Mark, name, 0).None? ==> NoMark(name)
    ensures FindFrom(Mark, name, 0).Some? ==>
      FirstMark(name, FindFrom(Mark, name, 0).value.0, FindFrom(Mark, name, 0).value.1)
  {
    var r := FindFrom(Mark, name, 0);
    var bound := if r.Some? then r.value.0 else |name| + 1;
    forall j, h | 0 <= j < bound && j <= h <= |name|
      ensures !IsMarkAt(name, j, h)
    {
      assert MatchAt(Mark, name, j).None?;
      MarkAtLongest(name, j);
    }
    if r.Some? {
      MarkAtLongest(name, r.value.0);
    }
  }

  /** The first standard-reference match found by scanning is the declarative first one. */
  lemma GostFirstMatch(name: string)
    ensures FindFrom(Gost, name, 0).None? ==> NoGost(name)
    ensures FindFrom(Gost, name, 0).Some? ==>
      FirstGost(name, FindFrom(Gost, name, 0).value.0, FindFrom(Gost, name, 0).value.1)
  {
    var r := FindFrom(Gost, name, 0);
    var bound := if r.Some? then r.value.0 else |name| + 1;
    forall j, h | 0 <= j < bound && j <= h <= |name|
      ensures !IsGostAt(name, j, h)
    {
      assert MatchAt(Gost, name, j).None?;
      GostAtLongest(name, j);
    }
    if r.Some? {
      GostAtLongest(name, r.value.0);
    }
  }

  /** In "Ст", digits, suffix, the digit run after "Ст" ends exactly where the suffix begins. */
  lemma GradeDigits(digits: string, suffix: string)
    requires |digits| >= 1 && DigitsBetween(digits, 0, |digits|)
    requires suffix in {"кп", "пс", "сп"}
    ensures HasAt("Ст" + digits + suffix, 0, "Ст")
    ensures DigitRunEnd("Ст" + digits + suffix, 2) == 2 + |digits|
    ensures ("Ст" + digits + suffix)[2 + |digits|..] == suffix
  {
    var s := "Ст" + digits + suffix;
    var d := 2 + |digits|;
    assert DigitsBetween(s, 2, d) by {
      forall k | 2 <= k < d ensures IsDigit(s[k]) {
        assert s[k] == digits[k - 2];
      }
    }
    assert s[d] == suffix[0];
    DigitRunEndUnique(s, 2, d);
    assert s[..2] == "Ст";
    assert s[d..] == suffix;
  }

  /**
   * As written, the mark pattern's class `[пс|кп]` takes one letter, so a
   * grade with a two-letter deoxidation suffix loses its second letter:
   * "Ст3сп" is captured as "Ст3с".
   */
  lemma MarkTruncatesGrade(digits: string, suffix: string)
    requires |digits| >= 1 && DigitsBetween(digits, 0, |digits|)
    requires suffix in {"кп", "пс", "сп"}
    ensures FirstCapture(Mark, "Ст" + digits + suffix) == "Ст" + digits + suffix[..1]
  {
    var s := "Ст" + digits + suffix;
    var d := 2 + |digits|;
    GradeDigits(digits, suffix);
    assert MarkAt(s, 0) == Some(d + 1);
    assert s[..d + 1] == "Ст" + digits + suffix[..1];
  }

  /** The grade pattern keeps a two-letter deoxidation suffix whole. */
  lemma GradeKeepsSuffix(digits: string, suffix: string)
    requires |digits| >= 1 && DigitsBetween(digits, 0, |digits|)
    requires suffix in {"кп", "пс", "сп"}
    ensures FirstCapture(Grade, "Ст" + digits + suffix) == "Ст" + digits + suffix
  {
    var s := "Ст" + digits + suffix;
    var d := 2 + |digits|;
    GradeDigits(digits, suffix);
    assert s[d..d + 2] == suffix;
    assert GradeAt(s, 0) == Some(d + 2);
    assert s[..d + 2] == s;
  }
}

=== FILE: category_closure.dfy ===
/**
 * The descendant-id closure used by the category page: an in-memory
 * parent -> children map is built from every (id, parent id) pair, then a
 * stack walk from the category collects every id it reaches.
 */
module CategoryClosure {
  import opened Wrappers
  import opened CategoryTree

  /** No element occurs twice in `s`. */
  predicate NoDuplicates(s: seq<int>) {
    forall i, j | 0 <= i < j < |s| :: s[i] != s[j]
  }

  /** Parent id (None for top-level rows) -> ids of its children. */
  type ChildrenMap = map<Option<int>, seq<int>>

  /** `cm` lists, under each parent key, exactly the children of that parent, each once. */
  ghost predicate ListsChildren(t: Table, cm: ChildrenMap) {
    && (forall k | k in cm :: NoDuplicates(cm[k]))
    && (forall k, c | k in cm && c in cm[k] :: c in t && t[c] == k)
    && (forall c | c in t :: t[c] in cm && c in cm[t[c]])
  }

  /**
   * Groups the ids of the table by parent id, visiting the rows in an
   * unspecified order (the order of the query result).
   */
  method BuildChildrenMap(t: Table) returns (cm: ChildrenMap)
    ensures ListsChildren(t, cm)
  {
    cm := map[];
    var rest := t.Keys;
    while rest != {}
      invariant rest <= t.Keys
      invariant forall k | k in cm :: NoDuplicates(cm[k])
      invariant forall k, c | k in cm && c in cm[k] :: c in t && c !in rest && t[c] == k
      invariant forall c | c in t && c !in rest :: t[c] in cm && c in cm[t[c]]
      decreases rest
    {
      NonEmptyHasMember(rest);
      var c :| c in rest;
      var k := t[c];
      var old_list := if k in cm then cm[k] else [];
      cm := cm[k := old_list + [c]];
      rest := rest - {c};
    }
  }

  /** A non-empty set has a member to pick. */
  lemma NonEmptyHasMember(s: set<int>)
    requires s != {}
    ensures exists x :: x in s
  {
    if forall x :: x !in s {
      assert false;
    }
  }

  /** The children of `id` as listed in `cm` (the empty list for a missing key). */
  function ChildrenOf(cm: ChildrenMap, id: int): (cs: seq<int>)
    ensures Some(id) in cm ==> cs == cm[Some(id)]
    ensures Some(id) !in cm ==> cs == []
  {
    if Some(id) in cm then cm[Some(id)] else []
  }

  /**
   * The ids of `root` and of all its descendants, collected by popping an id
   * off a stack, recording it, and pushing its children. On a well-formed
   * table each id is pushed once, so the walk ends.
   */
  method DescendantIds(t: Table, root: int) returns (categoryIds: set<int>)
    requires WellFormed(t)
    ensures categoryIds == Subtree(t, root)
    ensures root in categoryIds
    ensures forall p, c | p in categoryIds && IsChild(t, c, p) :: c in categoryIds
  {
    var cm := BuildChildrenMap(t);
    categoryIds := {};
    var stack := [root];
    while stack != []
      invariant Walking(t, root, categoryIds, stack)
      decreases Subtree(t, root) - categoryIds
    {
      var currentId := stack[|stack| - 1];
      WalkStep(t, root, cm, categoryIds, stack);
      stack := stack[..|stack| - 1];
      var children := ChildrenOf(cm, currentId);
      categoryIds := categoryIds + {currentId};
      stack := stack + children;
    }
    SubtreeLeast(t, root, categoryIds);
  }

  /**
   * The state of the walk: everything recorded or on the stack is in the
   * closure, nothing is both, the stack has no repeats, every recorded or
   * stacked id other than the root hangs off a recorded parent, and every
   * child of a recorded id is recorded or waiting on the stack.
   */
  ghost predicate Walking(t: Table, root: int, visited: set<int>, stack: seq<int>)
    requires WellFormed(t)
  {
    && visited <= Subtree(t, root)
    && (forall y | y in stack :: y in Subtree(t, root) && y !in visited)
    && NoDuplicates(stack)
    && (root in visited || root in stack)
    && (forall y | y in visited && y != root :: y in t && t[y].Some? && t[y].value in visited)
    && (forall y | y in stack && y != root :: y in t && t[y].Some? && t[y].value in visited)
    && (forall p, c | p in visited && IsChild(t, c, p) :: c in visited || c in stack)
  }

  /** Popping the top id, recording it and pushing its children keeps the walk's state. */
  lemma WalkStep(t: Table, root: int, cm: ChildrenMap, visited: set<int>, stack: seq<int>)
    requires WellFormed(t) && ListsChildren(t, cm)
    requires stack != [] && Walking(t, root, visited, stack)
    ensures stack[|stack| - 1] in Subtree(t, root) - visited
    ensures Walking(t, root, visited + {stack[|stack| - 1]}, stack[..|stack| - 1] + ChildrenOf(cm, stack[|stack| - 1]))
  {
    var x, rest := stack[|stack| - 1], stack[..|stack| - 1];
    assert stack == rest + [x];
    assert x !in rest by {
      assert stack[|stack| - 1] == x;
    }
    ChildrenFresh(t, root, cm, visited, rest, x);
    var v, cs := visited + {x}, ChildrenOf(cm, x);
    var st := rest + cs;
    assert v <= Subtree(t, root);
    assert NoDuplicates(st);
    assert root in v || root in st;
    assert forall y | y in st :: y in Subtree(t, root) && y !in v;
    assert forall y | y in v && y != root :: y in t && t[y].Some? && t[y].value in v;
    assert forall y | y in st && y != root :: y in t && t[y].Some? && t[y].value in v;
    assert forall p, c | p in v && IsChild(t, c, p) :: c in v || c in st;
    assert Walking(t, root, v, st);
  }

  /**
   * The children pushed for `x` are new: none of them is recorded, left on
   * the stack, or the root, and they belong to the closure.
   */
  lemma ChildrenFresh(t: Table, root: int, cm: ChildrenMap, visited: set<int>, stack: seq<int>, x: int)
    requires WellFormed(t) && ListsChildren(t, cm)
    requires x in Subtree(t, root) && x !in visited && x !in stack
    requires forall y | y in visited && y != root :: y in t && t[y].Some? && t[y].value in visited
    requires forall y | y in stack && y != root :: y in t && t[y].Some? && t[y].value in visited
    requires NoDuplicates(stack)
    ensures NoDuplicates(stack + ChildrenOf(cm, x))
    ensures forall c | c in ChildrenOf(cm, x) :: IsChild(t, c, x) && c != root && c !in visited && c !in stack && c in Subtree(t, root)
    ensures forall c | IsChild(t, c, x) :: c in ChildrenOf(cm, x)
  {
    var cs := ChildrenOf(cm, x);
    forall c | c in cs
      ensures IsChild(t, c, x) && c != root && c !in visited && c !in stack && c in Subtree(t, root)
    {
      RootNotChildOfSubtree(t, root, x);
      SubtreeClosed(t, root, x, c);
    }
    forall i, j | 0 <= i < j < |stack + cs|
      ensures (stack + cs)[i] != (stack + cs)[j]
    {
      if j >= |stack| && i < |stack| {
        assert (stack + cs)[j] in cs;
        assert (stack + cs)[i] in stack;
      } else if i >= |stack| {
        assert (stack + cs)[i] == cs[i - |stack|];
      }
    }
  }
}

=== FILE: category_tree.dfy ===
/**
 * The category hierarchy: a table mapping each category id to the id of
 * its parent category, if it has one. The database schema lets a parent
 * link point to any category, even a descendant, so acyclicity is an
 * explicit precondition here,
 * witnessed by a rank that strictly decreases from child to parent.
 */
module CategoryTree {
  import opened Wrappers

  /** id -> parent id (None for a top-level category). */
  type Table = map<int, Option<int>>

  /** `c` is a direct child of `p` in `t`. */
  predicate IsChild(t: Table, c: int, p: int) {
    c in t && t[c] == Some(p)
  }

  /** Every parent link refers to a category of the table (foreign-key integrity). */
  ghost predicate ParentsPresent(t: Table) {
    forall id | id in t && t[id].Some? :: t[id].value in t
  }

  /** `rank` strictly decreases along every parent link of `t`. */
  ghost predicate RankedBy(t: Table, rank: map<int, nat>) {
    && ParentsPresent(t)
    && t.Keys <= rank.Keys
    && forall id | id in t && t[id].Some? :: rank[t[id].value] < rank[id]
  }

  /** Parent links stay inside the table and contain no cycle. */
  ghost predicate WellFormed(t: Table) {
    exists rank :: RankedBy(t, rank)
  }

  /** A fixed rank witnessing that `t` is well formed. */
  ghost function Rank(t: Table): (rank: map<int, nat>)
    requires WellFormed(t)
    ensures RankedBy(t, rank)
  {
    var rank :| RankedBy(t, rank); rank
  }

  /** `a` is a chain of parent links from a top-level category down to `id`. */
  ghost predicate IsRootChain(t: Table, a: seq<int>, id: int) {
    && |a| >= 1
    && a[|a| - 1] == id
    && (forall i | 0 <= i < |a| :: a[i] in t)
    && t[a[0]].None?
    && (forall i | 0 <= i < |a| - 1 :: t[a[i + 1]] == Some(a[i]))
  }

  /**
   * The ancestor chain of `id`, from its top-level category down to `id`
   * itself: each step prepends the parent of the category reached so far.
   */
  function Ancestors(t: Table, id: int): (a: seq<int>)
    requires WellFormed(t) && id in t
    ensures IsRootChain(t, a, id)
    ensures t[id].None? ==> a == [id]
    decreases Rank(t)[id]
  {
    match t[id]
    case None => [id]
    case Some(p) => Ancestors(t, p) + [id]
  }

  /**
   * The ancestor walk as a loop: starting at `id`, insert the current
   * category at the front of the list and move to its parent, until there
   * is no parent.
   */
  method GetAncestors(t: Table, id: int) returns (ancestors: seq<int>)
    requires WellFormed(t) && id in t
    ensures ancestors == Ancestors(t, id)
  {
    var category := Some(id);
    ancestors := [];
    while category.Some?
      invariant category.Some? ==> category.value in t && Ancestors(t, category.value) + ancestors == Ancestors(t, id)
      invariant category.None? ==> ancestors == Ancestors(t, id)
      decreases if category.Some? then Rank(t)[category.value] + 1 else 0
    {
      var c := category.value;
      ancestors := [c] + ancestors;
      category := t[c];
      if category.Some? {
        assert Ancestors(t, c) == Ancestors(t, category.value) + [c];
      }
    }
  }

  /** Number of parent links between `id` and its top-level category. */
  function Depth(t: Table, id: int): nat
    requires WellFormed(t) && id in t
    decreases Rank(t)[id]
  {
    match t[id]
    case None => 0
    case Some(p) => Depth(t, p) + 1
  }

  /** The ancestor chain has one element more than the category's depth. */
  lemma {:induction false} AncestorsLength(t: Table, id: int)
    requires WellFormed(t) && id in t
    ensures |Ancestors(t, id)| == Depth(t, id) + 1
    decreases Rank(t)[id]
  {
    match t[id]
    case None =>
    case Some(p) => AncestorsLength(t, p);
  }

  /** The chain of parent links up to a top-level category is unique: it is `Ancestors`. */
  lemma {:induction false} RootChainUnique(t: Table, a: seq<int>, id: int)
    requires WellFormed(t) && id in t
    requires IsRootChain(t, a, id)
    ensures a == Ancestors(t, id)
    decreases |a|
  {
    if |a| == 1 {
    } else {
      var p := a[|a| - 2];
      assert t[id] == Some(p);
      var b := a[..|a| - 1];
      assert IsRootChain(t, b, p) by {
        forall i | 0 <= i < |b| - 1
          ensures t[b[i + 1]] == Some(b[i])
        {
          assert b[i + 1] == a[i + 1] && b[i] == a[i];
        }
      }
      RootChainUnique(t, b, p);
      assert a == b + [id];
    }
  }

  /** Every ancestor of `id` has rank at most that of `id`. */
  lemma {:induction false} AncestorRank(t: Table, id: int, x: int)
    requires WellFormed(t) && id in t
    requires x in Ancestors(t, id)
    ensures Rank(t)[x] <= Rank(t)[id]
    ensures x != id ==> Rank(t)[x] < Rank(t)[id]
    decreases Rank(t)[id]
  {
    match t[id]
    case None =>
    case Some(p) =>
      if x != id {
        assert x in Ancestors(t, p);
        AncestorRank(t, p, x);
      }
  }

  /**
   * The descendant closure of `root`: `root` itself and every category
   * whose ancestor chain passes through `root`.
   */
  function Subtree(t: Table, root: int): set<int>
    requires WellFormed(t)
  {
    {root} + set x | x in t.Keys && root in Ancestors(t, x)
  }

  /** The closure is closed under the child relation. */
  lemma SubtreeClosed(t: Table, root: int, p: int, c: int)
    requires WellFormed(t)
    requires p in Subtree(t, root) && IsChild(t, c, p)
    ensures c in Subtree(t, root)
  {
    assert Ancestors(t, c) == Ancestors(t, p) + [c];
  }

  /** A member of the closure other than `root` has its parent in the closure. */
  lemma SubtreeParent(t: Table, root: int, x: int)
    requires WellFormed(t)
    requires x in Subtree(t, root) && x != root
    ensures x in t && t[x].Some? && t[x].value in Subtree(t, root)
  {
    if t[x].Some? {
      assert Ancestors(t, x) == Ancestors(t, t[x].value) + [x];
    }
  }

  /** Any set holding `root` and closed under the child relation contains the closure. */
  lemma {:induction false} SubtreeLeast(t: Table, root: int, s: set<int>)
    requires WellFormed(t)
    requires root in s
    requires forall p, c | p in s && IsChild(t, c, p) :: c in s
    ensures Subtree(t, root) <= s
  {
    forall x | x in Subtree(t, root)
      ensures x in s
    {
      SubtreeLeastAt(t, root, s, x);
    }
  }

  lemma {:induction false} SubtreeLeastAt(t: Table, root: int, s: set<int>, x: int)
    requires WellFormed(t)
    requires root in s
    requires forall p, c | p in s && IsChild(t, c, p) :: c in s
    requires x in Subtree(t, root)
    ensures x in s
    decreases if x in t then Rank(t)[x] else 0
  {
    if x != root {
      SubtreeParent(t, root, x);
      var p := t[x].value;
      SubtreeLeastAt(t, root, s, p);
    }
  }

  /** A category with no children has exactly itself as its closure. */
  lemma LeafSubtree(t: Table, root: int)
    requires WellFormed(t)
    requires forall c | c in t :: t[c] != Some(root)
    ensures Subtree(t, root) == {root}
  {
    SubtreeLeast(t, root, {root});
  }

  /** A category can never be a child of one of its own descendants. */
  lemma RootNotChildOfSubtree(t: Table, root: int, x: int)
    requires WellFormed(t)
    requires x in Subtree(t, root)
    ensures !IsChild(t, root, x)
  {
    if IsChild(t, root, x) && x != root {
      AncestorRank(t, x, root);
    }
  }

  /** The categories whose parent is `parent`, other than `exclude`. */
  function Siblings(t: Table, parent: Option<int>, exclude: int): (s: set<int>)
    ensures forall c :: c in s <==> c in t && t[c] == parent && c != exclude
  {
    set c | c in t.Keys && t[c] == parent && c != exclude
  }

  /**
   * "Similar categories" of `id`: the other categories with the same parent;
   * when there are none and `id` has a parent, the children of its
   * grandparent other than `id` (which includes the parent itself), or no
   * collection at all when the parent is top-level.
   */
  function SimilarCategories(t: Table, id: int): (r: Option<set<int>>)
    requires ParentsPresent(t) && id in t
    ensures r.Some? ==> id !in r.value
    ensures r.None? <==> Siblings(t, t[id], id) == {} && t[id].Some? && t[t[id].value].None?
    ensures (exists c :: c in t && c != id && t[c] == t[id]) ==> r == Some(Siblings(t, t[id], id))
    ensures t[id].None? ==> r == Some(Siblings(t, None, id))
    ensures Siblings(t, t[id], id) == {} && t[id].Some? && t[t[id].value].Some? ==>
      r == Some(Siblings(t, t[t[id].value], id))
  {
    var first := Siblings(t, t[id], id);
    if first == {} && t[id].Some? then
      var p := t[id].value;
      if t[p].Some? then Some(Siblings(t, t[p], id)) else None
    else
      Some(first)
  }

  /** In an acyclic table the grandparent fallback always offers the parent itself. */
  lemma SimilarFallbackHoldsParent(t: Table, id: int)
    requires WellFormed(t) && id in t
    requires Siblings(t, t[id], id) == {} && t[id].Some? && t[t[id].value].Some?
    ensures SimilarCategories(t, id).Some? && t[id].value in SimilarCategories(t, id).value
  {
    var p := t[id].value;
    assert Rank(t)[p] < Rank(t)[id];
  }
}

=== FILE: pagination.dfy ===
/**
 * The page-number window shown under a product listing: at most five page
 * numbers, all of them when there are five pages or fewer, otherwise five
 * consecutive pages around the current one, pushed inward at either end.
 */
module Pagination {

  /** Python's `range(lo, hi)` as a sequence of integers. */
  function Range(lo: int, hi: int): (r: seq<int>)
    ensures |r| == if lo < hi then hi - lo else 0
    ensures forall i | 0 <= i < |r| :: r[i] == lo + i
    decreases hi - lo
  {
    if lo < hi then [lo] + Range(lo + 1, hi) else []
  }

  /** `x` clamped into the interval `[lo, hi]` (which must be non-empty). */
  function Clamp(x: int, lo: int, hi: int): (r: int)
    requires lo <= hi
    ensures lo <= r <= hi
    ensures lo <= x <= hi ==> r == x
    ensures x < lo ==> r == lo
    ensures hi < x ==> r == hi
  {
    if x < lo then lo else if hi < x then hi else x
  }

  /** The window of page numbers for `current` out of `total` pages. */
  function PageWindow(current: int, total: int): (r: seq<int>)
    ensures total <= 5 ==> r == Range(1, total + 1)
    ensures total > 5 ==> |r| == 5
    ensures total > 5 ==> forall i | 0 <= i < 4 :: r[i + 1] == r[i] + 1
    ensures total > 5 ==> 1 <= r[0] && r[4] <= total
    ensures 1 <= current <= total ==> current in r
  {
    var r :=
      if total <= 5 then
        Range(1, total + 1)
      else if current <= 3 then
        Range(1, 6)
      else if current >= total - 2 then
        Range(total - 4, total + 1)
      else
        Range(current - 2, current + 3);
    assert 1 <= current <= total ==> r[current - r[0]] == current;
    r
  }

  /**
   * Independent description of the large case: the window starts at
   * `current - 2` clamped into `[1, total - 4]`, so it is centred on the
   * current page whenever that leaves it inside `[1, total]`.
   */
  lemma PageWindowIsClampedCentre(current: int, total: int)
    requires total > 5
    ensures PageWindow(current, total) == Range(Clamp(current - 2, 1, total - 4), Clamp(current - 2, 1, total - 4) + 5)
    ensures 3 <= current <= total - 2 ==> PageWindow(current, total)[2] == current
  {
  }

  /** The three boundary regimes of the large case. */
  lemma PageWindowBoundaries(current: int, total: int)
    requires total > 5
    ensures current <= 3 ==> PageWindow(current, total) == [1, 2, 3, 4, 5]
    ensures 3 < current && current >= total - 2 ==> PageWindow(current, total) == [total - 4, total - 3, total - 2, total - 1, total]
    ensures 3 < current < total - 2 ==> PageWindow(current, total) == [current - 2, current - 1, current, current + 1, current + 2]
  {
  }

  /** Sample windows for a listing of twenty pages. */
  lemma PageWindowSamples()
    ensures PageWindow(1, 20) == [1, 2, 3, 4, 5]
    ensures PageWindow(20, 20) == [16, 17, 18, 19, 20]
    ensures PageWindow(10, 20) == [8, 9, 10, 11, 12]
    ensures PageWindow(2, 3) == [1, 2, 3]
  {
  }
}

=== FILE: search.dfy ===
/**
 * The search endpoint: products, then categories, whose name contains the
 * stripped query ignoring case, and a single "nothing found" record when
 * the query is blank or nothing matches.
 */
module Search {
  import opened Wrappers
  import opened Text

  /** A product row joined with the name of its category. */
  datatype ProductRow = ProductRow(name: string, slug: Option<string>, categoryName: string, image: string)

  /** A category row joined with the name of its parent, if any. */
  datatype CategoryRow = CategoryRow(name: string, slug: string, parentName: Option<string>, image: string)

  /** One record of the JSON result list. */
  datatype Hit =
    | ProductHit(name: string, productSlug: Option<string>, category: string, image: Option<string>)
    | CategoryHit(name: string, categorySlug: string, parent: Option<string>, image: Option<string>)
    | NothingFound

  const NothingFoundName: string := "Ничего не найдено"

  /** The record's `type` field. */
  function TypeTag(h: Hit): string {
    match h
    case ProductHit(_, _, _, _) => "product"
    case CategoryHit(_, _, _, _) => "category"
    case NothingFound => "none"
  }

  /** The record's `name` field. */
  function HitName(h: Hit): string {
    match h
    case ProductHit(n, _, _, _) => n
    case CategoryHit(n, _, _, _) => n
    case NothingFound => NothingFoundName
  }

  /** An empty image field is reported as null. */
  function ImageOf(image: string): Option<string> {
    if image == "" then None else Some(image)
  }

  function ProductRecord(p: ProductRow): Hit {
    ProductHit(p.name, p.slug, p.categoryName, ImageOf(p.image))
  }

  function CategoryRecord(c: CategoryRow): Hit {
    CategoryHit(c.name, c.slug, c.parentName, ImageOf(c.image))
  }

  function ProductName(p: ProductRow): string { p.name }

  function CategoryName(c: CategoryRow): string { c.name }

  /**
   * The search of one table: `name` reads a row's name, and `record` builds
   * the row's JSON record. Products and categories are both filtered this way.
   */
  function MatchCount<R>(q: string, rows: seq<R>, name: R -> string): nat {
    if rows == [] then 0
    else (if ContainsIgnoringCase(name(rows[0]), q) then 1 else 0) + MatchCount(q, rows[1..], name)
  }

  /** The records of the rows whose name contains `q`, in row order. */
  function Hits<R>(q: string, rows: seq<R>, name: R -> string, record: R -> Hit): (hs: seq<Hit>)
    ensures |hs| == MatchCount(q, rows, name)
    ensures forall i | 0 <= i < |rows| && ContainsIgnoringCase(name(rows[i]), q) :: record(rows[i]) in hs
    ensures forall h | h in hs :: exists i | 0 <= i < |rows| :: ContainsIgnoringCase(name(rows[i]), q) && h == record(rows[i])
  {
    if rows == [] then []
    else
      var rest := Hits(q, rows[1..], name, record);
      assert forall i | 1 <= i < |rows| :: rows[i] == rows[1..][i - 1];
      if ContainsIgnoringCase(name(rows[0]), q) then [record(rows[0])] + rest else rest
  }

  predicate StrictlyIncreasing(idx: seq<nat>) {
    forall k, l | 0 <= k < l < |idx| :: idx[k] < idx[l]
  }

  /**
   * `idx` lists, in increasing order, exactly the rows whose name contains
   * `q`, and `hs` holds their records in that order.
   */
  ghost predicate Picks<R>(q: string, rows: seq<R>, name: R -> string, record: R -> Hit, hs: seq<Hit>, idx: seq<nat>) {
    && |idx| == |hs|
    && StrictlyIncreasing(idx)
    && (forall k | 0 <= k < |idx| :: idx[k] < |rows| && hs[k] == record(rows[idx[k]]))
    && (forall i | 0 <= i < |rows| :: i in idx <==> ContainsIgnoringCase(name(rows[i]), q))
  }

  /** `idx` with every entry moved one row down. */
  function Shift(idx: seq<nat>): (r: seq<nat>)
    ensures |r| == |idx|
    ensures forall k | 0 <= k < |idx| :: r[k] == idx[k] + 1
  {
    seq(|idx|, k requires 0 <= k < |idx| => idx[k] + 1)
  }

  /** Shifting keeps an index list increasing, also after a leading row 0. */
  lemma ShiftIncreasing(idx: seq<nat>)
    requires StrictlyIncreasing(idx)
    ensures StrictlyIncreasing(Shift(idx)) && StrictlyIncreasing([0] + Shift(idx))
  {
    var s := Shift(idx);
    forall k, l | 0 <= k < l < |[0] + s|
      ensures ([0] + s)[k] < ([0] + s)[l]
    {
      if k > 0 {
        assert s[k - 1] == idx[k - 1] + 1 && s[l - 1] == idx[l - 1] + 1;
      }
    }
  }

  /** Row `i` is in the shifted list exactly when row `i - 1` was in the original. */
  lemma ShiftMembers(idx: seq<nat>, i: nat)
    ensures i in Shift(idx) <==> i > 0 && i - 1 in idx
  {
    var s := Shift(idx);
    if i in s {
      var k :| 0 <= k < |s| && s[k] == i;
      assert idx[k] == i - 1;
    }
    if i > 0 && i - 1 in idx {
      var k :| 0 <= k < |idx| && idx[k] == i - 1;
      assert s[k] == i;
    }
  }

  /** Positions of the rows whose name contains `q`, in increasing order. */
  function MatchingRows<R>(q: string, rows: seq<R>, name: R -> string): (idx: seq<nat>)
    ensures forall k | 0 <= k < |idx| :: idx[k] < |rows|
  {
    if rows == [] then []
    else (if ContainsIgnoringCase(name(rows[0]), q) then [0] else []) + Shift(MatchingRows(q, rows[1..], name))
  }

  /** `MatchingRows` selects exactly the matching rows, in increasing order. */
  lemma {:induction false} MatchingRowsSelect<R>(q: string, rows: seq<R>, name: R -> string)
    ensures StrictlyIncreasing(MatchingRows(q, rows, name))
    ensures forall i | 0 <= i < |rows| :: i in MatchingRows(q, rows, name) <==> ContainsIgnoringCase(name(rows[i]), q)
  {
    if rows != [] {
      var tail := MatchingRows(q, rows[1..], name);
      MatchingRowsSelect(q, rows[1..], name);
      ShiftIncreasing(tail);
      forall i | 0 <= i < |rows|
        ensures i in MatchingRows(q, rows, name) <==> ContainsIgnoringCase(name(rows[i]), q)
      {
        ShiftMembers(tail, i);
        if i > 0 {
          assert rows[i] == rows[1..][i - 1];
        }
      }
    }
  }

  /** The `k`-th hit is the record of the `k`-th matching row. */
  lemma {:induction false} HitsFollowRows<R>(q: string, rows: seq<R>, name: R -> string, record: R -> Hit)
    ensures |Hits(q, rows, name, record)| == |MatchingRows(q, rows, name)|
    ensures forall k | 0 <= k < |MatchingRows(q, rows, name)| ::
      Hits(q, rows, name, record)[k] == record(rows[MatchingRows(q, rows, name)[k]])
  {
    if rows != [] {
      HitsFollowRows(q, rows[1..], name, record);
      var hs, rest := Hits(q, rows, name, record), Hits(q, rows[1..], name, record);
      var idx, tail := MatchingRows(q, rows, name), MatchingRows(q, rows[1..], name);
      var m := ContainsIgnoringCase(name(rows[0]), q);
      var skip := if m then 1 else 0;
      assert hs == (if m then [record(rows[0])] else []) + rest;
      assert idx == (if m then [0] else []) + Shift(tail);
      forall k | skip <= k < |idx|
        ensures hs[k] == record(rows[idx[k]])
      {
        assert idx[k] == tail[k - skip] + 1;
        assert hs[k] == rest[k - skip];
        assert rows[1..][tail[k - skip]] == rows[idx[k]];
      }
    }
  }

  /** Hits keep the query's row order: they are the matching rows, each once, in sequence. */
  lemma HitsInRowOrder<R>(q: string, rows: seq<R>, name: R -> string, record: R -> Hit)
    ensures exists idx :: Picks(q, rows, name, record, Hits(q, rows, name, record), idx)
  {
    MatchingRowsSelect(q, rows, name);
    HitsFollowRows(q, rows, name, record);
    assert Picks(q, rows, name, record, Hits(q, rows, name, record), MatchingRows(q, rows, name));
  }

  /** The product records for `q`: all of type "product". */
  function ProductHits(q: string, ps: seq<ProductRow>): (hs: seq<Hit>)
    ensures |hs| == MatchCount(q, ps, ProductName)
    ensures forall k | 0 <= k < |hs| :: TypeTag(hs[k]) == "product"
  {
    var hs := Hits(q, ps, ProductName, ProductRecord);
    assert forall k | 0 <= k < |hs| :: hs[k] in hs;
    hs
  }

  /** The category records for `q`: all of type "category". */
  function CategoryHits(q: string, cs: seq<CategoryRow>): (hs: seq<Hit>)
    ensures |hs| == MatchCount(q, cs, CategoryName)
    ensures forall k | 0 <= k < |hs| :: TypeTag(hs[k]) == "category"
  {
    var hs := Hits(q, cs, CategoryName, CategoryRecord);
    assert forall k | 0 <= k < |hs| :: hs[k] in hs;
    hs
  }

  /** Product records followed by category records keep their types in place, and hold no sentinel. */
  lemma ProductsThenCategories(ph: seq<Hit>, ch: seq<Hit>)
    requires forall k | 0 <= k < |ph| :: TypeTag(ph[k]) == "product"
    requires forall k | 0 <= k < |ch| :: TypeTag(ch[k]) == "category"
    ensures forall i | 0 <= i < |ph| :: TypeTag((ph + ch)[i]) == "product"
    ensures forall i | |ph| <= i < |ph + ch| :: TypeTag((ph + ch)[i]) == "category"
    ensures NothingFound !in ph + ch
  {
    forall i | 0 <= i < |ph + ch|
      ensures (ph + ch)[i] != NothingFound
    {
      if i < |ph| {
        assert TypeTag(ph[i]) == "product";
      } else {
        assert TypeTag(ch[i - |ph|]) == "category";
      }
    }
  }

  /** The result list for the raw `query` parameter. */
  function SearchResults(query: string, products: seq<ProductRow>, categories: seq<CategoryRow>): (r: seq<Hit>)
    ensures |r| >= 1
    ensures Strip(query) == [] ==> r == [NothingFound] && TypeTag(r[0]) == "none" && HitName(r[0]) == NothingFoundName
    ensures Strip(query) != [] && MatchCount(Strip(query), products, ProductName) + MatchCount(Strip(query), categories, CategoryName) == 0
      ==> r == [NothingFound]
    ensures Strip(query) != [] && MatchCount(Strip(query), products, ProductName) + MatchCount(Strip(query), categories, CategoryName) > 0
      ==> (&& |r| == MatchCount(Strip(query), products, ProductName) + MatchCount(Strip(query), categories, CategoryName)
           && (forall i | 0 <= i < MatchCount(Strip(query), products, ProductName) :: TypeTag(r[i]) == "product")
           && (forall i | MatchCount(Strip(query), products, ProductName) <= i < |r| :: TypeTag(r[i]) == "category")
           && r == ProductHits(Strip(query), products) + CategoryHits(Strip(query), categories))
    ensures NothingFound in r ==> r == [NothingFound]
  {
    var q := Strip(query);
    if q == [] then [NothingFound]
    else
      var ph, ch := ProductHits(q, products), CategoryHits(q, categories);
      ProductsThenCategories(ph, ch);
      if ph + ch == [] then [NothingFound] else ph + ch
  }
}

=== FILE: slugs.dfy ===
/**
 * Slug assignment on first save of a product or a service: when no slug is
 * set, try the base slug, then base-1, base-2, ... and keep the first one
 * no record of the same kind already uses. The base slug itself comes from
 * a transliterating library and is an input here.
 */
module Slugs {
  import opened Wrappers

  function DigitChar(d: nat): (c: char)
    requires d < 10
    ensures '0' <= c <= '9'
  {
    ['0', '1', '2', '3', '4', '5', '6', '7', '8', '9'][d]
  }

  /** Decimal representation of `n`, as an f-string renders an integer. */
  function NatToString(n: nat): (s: string)
    ensures 1 <= |s|
    ensures forall i | 0 <= i < |s| :: '0' <= s[i] <= '9'
    ensures n < 10 <==> |s| == 1
  {
    if n < 10 then [DigitChar(n)] else NatToString(n / 10) + [DigitChar(n % 10)]
  }

  /** Different numbers have different decimal representations. */
  lemma {:induction false} NatToStringInjective(a: nat, b: nat)
    requires NatToString(a) == NatToString(b)
    ensures a == b
  {
    var sa := NatToString(a);
    var sb := NatToString(b);
    if a >= 10 && b >= 10 {
      assert sa[..|sa| - 1] == NatToString(a / 10);
      assert sb[..|sb| - 1] == NatToString(b / 10);
      NatToStringInjective(a / 10, b / 10);
      assert DigitChar(a % 10) == sa[|sa| - 1] == sb[|sb| - 1] == DigitChar(b % 10);
    } else {
      assert DigitChar(a) == sa[0] == sb[0] == DigitChar(b);
    }
  }

  /** The `k`-th slug tried: the base itself, then base-1, base-2, ... */
  function Candidate(base: string, k: nat): (slug: string)
    ensures k == 0 ==> slug == base
    ensures k > 0 ==> |slug| > |base| + 1 && slug[..|base|] == base && slug[|base|] == '-'
  {
    if k == 0 then base else base + "-" + NatToString(k)
  }

  /** Different attempts give different slugs. */
  lemma CandidateInjective(base: string, j: nat, k: nat)
    requires Candidate(base, j) == Candidate(base, k)
    ensures j == k
  {
    if j > 0 && k > 0 {
      var cj := Candidate(base, j);
      assert cj[|base| + 1..] == NatToString(j);
      assert Candidate(base, k)[|base| + 1..] == NatToString(k);
      NatToStringInjective(j, k);
    }
  }

  /** The first `n` attempts. */
  function Attempts(base: string, n: nat): (s: set<string>)
    ensures forall k | 0 <= k < n :: Candidate(base, k) in s
    ensures forall x | x in s :: exists k | 0 <= k < n :: x == Candidate(base, k)
  {
    if n == 0 then {} else Attempts(base, n - 1) + {Candidate(base, n - 1)}
  }

  lemma {:induction false} AttemptsSize(base: string, n: nat)
    ensures |Attempts(base, n)| == n
  {
    if n > 0 {
      AttemptsSize(base, n - 1);
      if Candidate(base, n - 1) in Attempts(base, n - 1) {
        var k :| 0 <= k < n - 1 && Candidate(base, n - 1) == Candidate(base, k);
        CandidateInjective(base, n - 1, k);
      }
    }
  }

  /** If the first `n` attempts are all taken, there are at least `n` taken slugs. */
  lemma TakenAttemptsBound(base: string, taken: set<string>, n: nat)
    requires forall j | 0 <= j < n :: Candidate(base, j) in taken
    ensures n <= |taken|
  {
    var a := Attempts(base, n);
    AttemptsSize(base, n);
    assert taken == a + (taken - a);
  }

  /** `slug` is the first attempt, counting from the base, that is not taken. */
  ghost predicate IsFirstFree(base: string, taken: set<string>, slug: string) {
    exists k: nat :: slug == Candidate(base, k) && slug !in taken && forall j | 0 <= j < k :: Candidate(base, j) in taken
  }

  /** The first free attempt from the `k`-th one on, when all earlier ones are taken. */
  function FreeFrom(base: string, taken: set<string>, k: nat): (slug: string)
    requires forall j | 0 <= j < k :: Candidate(base, j) in taken
    ensures slug !in taken
    ensures IsFirstFree(base, taken, slug)
    decreases |taken| - k
  {
    if Candidate(base, k) !in taken then
      Candidate(base, k)
    else
      TakenAttemptsBound(base, taken, k + 1);
      FreeFrom(base, taken, k + 1)
  }

  /** The slug the save loop settles on for `base` against `taken`. */
  function FirstFreeSlug(base: string, taken: set<string>): (slug: string)
    ensures slug !in taken
    ensures IsFirstFree(base, taken, slug)
    ensures base !in taken ==> slug == base
  {
    FreeFrom(base, taken, 0)
  }

  /** Exactly one slug is the first free attempt. */
  lemma FirstFreeUnique(base: string, taken: set<string>, s1: string, s2: string)
    requires IsFirstFree(base, taken, s1) && IsFirstFree(base, taken, s2)
    ensures s1 == s2
  {
    var k1: nat :| s1 == Candidate(base, k1) && s1 !in taken && forall j | 0 <= j < k1 :: Candidate(base, j) in taken;
    var k2: nat :| s2 == Candidate(base, k2) && s2 !in taken && forall j | 0 <= j < k2 :: Candidate(base, j) in taken;
  }

  /**
   * The save loop itself: start from the base with counter 1, and while
   * the slug is taken, replace it by base-counter and increment the counter.
   */
  method AssignSlug(base: string, taken: set<string>) returns (slug: string)
    ensures slug !in taken
    ensures IsFirstFree(base, taken, slug)
    ensures slug == FirstFreeSlug(base, taken)
  {
    slug := base;
    var counter := 1;
    while slug in taken
      invariant counter >= 1
      invariant slug == Candidate(base, counter - 1)
      invariant forall j | 0 <= j < counter - 1 :: Candidate(base, j) in taken
      invariant FreeFrom(base, taken, counter - 1) == FirstFreeSlug(base, taken)
      decreases |taken| - counter + 1
    {
      TakenAttemptsBound(base, taken, counter);
      slug := base + "-" + NatToString(counter);
      counter := counter + 1;
    }
  }

  /** The two kinds of record that get slugs, each with its own table. */
  datatype Kind = ProductKind | ServiceKind

  /** The slugs already used by products and by services. */
  datatype SlugTables = SlugTables(products: set<string>, services: set<string>) {
    function Of(kind: Kind): set<string> {
      match kind
      case ProductKind => products
      case ServiceKind => services
    }
  }

  /** An unset slug is a missing or an empty one. */
  predicate IsUnset(current: Option<string>) {
    current.None? || current.value == ""
  }

  /**
   * The slug a record of `kind` has after saving: a slug already set is
   * kept; otherwise the first free attempt against that kind's table.
   */
  function SlugOnSave(kind: Kind, current: Option<string>, base: string, tables: SlugTables): (slug: string)
    ensures !IsUnset(current) ==> slug == current.value
    ensures IsUnset(current) ==> slug !in tables.Of(kind) && IsFirstFree(base, tables.Of(kind), slug)
  {
    if !IsUnset(current) then current.value else FirstFreeSlug(base, tables.Of(kind))
  }

  /** A service's slug depends on the service table only, and a product's on the product table only. */
  lemma SlugOnSaveIgnoresOtherKind(kind: Kind, current: Option<string>, base: string, t1: SlugTables, t2: SlugTables)
    requires t1.Of(kind) == t2.Of(kind)
    ensures SlugOnSave(kind, current, base, t1) == SlugOnSave(kind, current, base, t2)
  {
  }

  /**
   * New records of one kind saved one after another, each with an unset
   * slug: each gets the first free attempt for its base, and its slug is
   * then taken for the records after it.
   */
  function SaveAll(bases: seq<string>, taken: set<string>): (slugs: seq<string>)
    ensures |slugs| == |bases|
    ensures forall i | 0 <= i < |slugs| :: slugs[i] !in taken
    ensures forall i, j | 0 <= i < j < |slugs| :: slugs[i] != slugs[j]
    decreases |bases|
  {
    if bases == [] then []
    else
      var first := FirstFreeSlug(bases[0], taken);
      [first] + SaveAll(bases[1..], taken + {first})
  }

  /**
   * When the taken slugs are exactly the first `n` attempts for `base`,
   * the next record with that base gets the `n`-th attempt.
   */
  lemma NextAfterCollisions(base: string, n: nat)
    ensures FirstFreeSlug(base, Attempts(base, n)) == Candidate(base, n)
  {
    var taken := Attempts(base, n);
    if Candidate(base, n) in taken {
      var k :| 0 <= k < n && Candidate(base, n) == Candidate(base, k);
      CandidateInjective(base, n, k);
    }
    assert IsFirstFree(base, taken, Candidate(base, n));
    FirstFreeUnique(base, taken, FirstFreeSlug(base, taken), Candidate(base, n));
  }
}

=== FILE: text.dfy ===
/**
 * Character classes and string helpers shared by the attribute parser and
 * the search endpoint. Whitespace is Python's full whitespace set; `\d`,
 * which Python also reads as every Unicode decimal digit, is narrowed to
 * the ASCII digits.
 */
module Text {

  predicate IsDigit(c: char) {
    '0' <= c <= '9'
  }

  /**
   * Python's whitespace for `str.strip()` and for `\s` in a text pattern:
   * tab to carriage return, the file/group/record/unit separators, space,
   * next line, no-break space, ogham space mark, the typographic spaces
   * U+2000 to U+200A, line and paragraph separators, narrow no-break
   * space, medium mathematical space and ideographic space.
   */
  predicate IsSpace(c: char) {
    || '\t' <= c <= '\r'
    || '\U{1C}' <= c <= '\U{1F}'
    || c == ' '
    || c == '\U{85}'
    || c == '\U{A0}'
    || c == '\U{1680}'
    || '\U{2000}' <= c <= '\U{200A}'
    || c == '\U{2028}' || c == '\U{2029}'
    || c == '\U{202F}' || c == '\U{205F}'
    || c == '\U{3000}'
  }

  /** Every character of `s` in `[i, j)` is a digit. */
  predicate DigitsBetween(s: string, i: nat, j: nat)
    requires i <= j <= |s|
  {
    forall k | i <= k < j :: IsDigit(s[k])
  }

  /** Every character of `s` in `[i, j)` is whitespace. */
  predicate SpacesBetween(s: string, i: nat, j: nat)
    requires i <= j <= |s|
  {
    forall k | i <= k < j :: IsSpace(s[k])
  }

  /** `s` has `pre` at index `i`. */
  predicate HasAt(s: string, i: nat, pre: string) {
    i + |pre| <= |s| && s[i..i + |pre|] == pre
  }

  /** Python's `sub in s`: `sub` occurs somewhere in `s`. */
  predicate Occurs(sub: string, s: string) {
    exists i: nat | i <= |s| :: HasAt(s, i, sub)
  }

  /** End of the longest run of digits starting at `i`. */
  function DigitRunEnd(s: string, i: nat): (j: nat)
    requires i <= |s|
    ensures i <= j <= |s|
    ensures DigitsBetween(s, i, j)
    ensures j == |s| || !IsDigit(s[j])
    decreases |s| - i
  {
    if i < |s| && IsDigit(s[i]) then DigitRunEnd(s, i + 1) else i
  }

  /** A run of digits that cannot be extended is the one `DigitRunEnd` finds. */
  lemma {:induction false} DigitRunEndUnique(s: string, i: nat, j: nat)
    requires i <= j <= |s|
    requires DigitsBetween(s, i, j)
    requires j == |s| || !IsDigit(s[j])
    ensures DigitRunEnd(s, i) == j
    decreases j - i
  {
    if i < j {
      DigitRunEndUnique(s, i + 1, j);
    }
  }

  /** The run of digits found from `i` covers every all-digit stretch from `i`. */
  lemma {:induction false} DigitRunEndCovers(s: string, i: nat, j: nat)
    requires i <= j <= |s|
    requires DigitsBetween(s, i, j)
    ensures j <= DigitRunEnd(s, i)
    decreases j - i
  {
    if i < j {
      DigitRunEndCovers(s, i + 1, j);
    }
  }

  /** End of the longest run of whitespace starting at `i`. */
  function SpaceRunEnd(s: string, i: nat): (j: nat)
    requires i <= |s|
    ensures i <= j <= |s|
    ensures SpacesBetween(s, i, j)
    ensures j == |s| || !IsSpace(s[j])
    decreases |s| - i
  {
    if i < |s| && IsSpace(s[i]) then SpaceRunEnd(s, i + 1) else i
  }

  /** A run of whitespace that cannot be extended is the one `SpaceRunEnd` finds. */
  lemma {:induction false} SpaceRunEndUnique(s: string, i: nat, j: nat)
    requires i <= j <= |s|
    requires SpacesBetween(s, i, j)
    requires j == |s| || !IsSpace(s[j])
    ensures SpaceRunEnd(s, i) == j
    decreases j - i
  {
    if i < j {
      SpaceRunEndUnique(s, i + 1, j);
    }
  }

  /** Index just past the last non-whitespace character in `[lo, j)` (`lo` if there is none). */
  function TrimEnd(s: string, lo: nat, j: nat): (k: nat)
    requires lo <= j <= |s|
    ensures lo <= k <= j
    ensures SpacesBetween(s, k, j)
    ensures k > lo ==> !IsSpace(s[k - 1])
    decreases j
  {
    if j > lo && IsSpace(s[j - 1]) then TrimEnd(s, lo, j - 1) else j
  }

  /** Python's `str.strip()`: `s` without leading and trailing whitespace. */
  function Strip(s: string): (r: string)
    ensures r == [] || (!IsSpace(r[0]) && !IsSpace(r[|r| - 1]))
    ensures exists i, j | 0 <= i <= j <= |s| :: r == s[i..j] && SpacesBetween(s, 0, i) && SpacesBetween(s, j, |s|)
    ensures r == [] <==> SpacesBetween(s, 0, |s|)
  {
    var i := SpaceRunEnd(s, 0);
    var j := TrimEnd(s, i, |s|);
    assert i < |s| ==> !IsSpace(s[i]);
    s[i..j]
  }

  /** Upper-case letters of the Latin and Russian alphabets. */
  predicate IsUpper(c: char) {
    'A' <= c <= 'Z' || 'А' <= c <= 'Я' || c == 'Ё'
  }

  /** Lower-case for ASCII letters and the Russian alphabet; every other character is kept. */
  function Fold(c: char): (d: char)
    ensures !IsUpper(d)
    ensures IsUpper(c) ==> d != c
    ensures !IsUpper(c) ==> d == c
  {
    if 'A' <= c <= 'Z' then (c as int + 32) as char
    else if 'А' <= c <= 'Я' then (c as int + 32) as char
    else if c == 'Ё' then 'ё'
    else c
  }

  function FoldAll(s: string): (r: string)
    ensures |r| == |s|
    ensures forall i | 0 <= i < |s| :: r[i] == Fold(s[i])
  {
    seq(|s|, i requires 0 <= i < |s| => Fold(s[i]))
  }

  /** The capital letters `Fold` lowers, each at the index of its small partner. */
  const LatinCapitals: string := "ABCDEFGHIJKLMNOPQRSTUVWXYZ"
  const LatinSmalls: string := "abcdefghijklmnopqrstuvwxyz"
  const CyrillicCapitals: string := "АБВГДЕЖЗИЙКЛМНОПРСТУФХЦЧШЩЪЫЬЭЮЯЁ"
  const CyrillicSmalls: string := "абвгдежзийклмнопрстуфхцчшщъыьэюяё"
  const Capitals: string := LatinCapitals + CyrillicCapitals
  const Smalls: string := LatinSmalls + CyrillicSmalls

  lemma {:induction false} LatinLowAt(i: nat)
    requires i < 13
    ensures LatinCapitals[i] as int == 'A' as int + i && LatinSmalls[i] as int == 'a' as int + i
  {
    if i == 0 { assert LatinCapitals[0] == 'A' && LatinSmalls[0] == 'a'; }
    else if i == 1 { assert LatinCapitals[1] == 'B' && LatinSmalls[1] == 'b'; }
    else if i == 2 { assert LatinCapitals[2] == 'C' && LatinSmalls[2] == 'c'; }
    else if i == 3 { assert LatinCapitals[3] == 'D' && LatinSmalls[3] == 'd'; }
    else if i == 4 { assert LatinCapitals[4] == 'E' && LatinSmalls[4] == 'e'; }
    else if i == 5 { assert LatinCapitals[5] == 'F' && LatinSmalls[5] == 'f'; }
    else if i == 6 { assert LatinCapitals[6] == 'G' && LatinSmalls[6] == 'g'; }
    else if i == 7 { assert LatinCapitals[7] == 'H' && LatinSmalls[7] == 'h'; }
    else if i == 8 { assert LatinCapitals[8] == 'I' && LatinSmalls[8] == 'i'; }
    else if i == 9 { assert LatinCapitals[9] == 'J' && LatinSmalls[9] == 'j'; }
    else if i == 10 { assert LatinCapitals[10] == 'K' && LatinSmalls[10] == 'k'; }
    else if i == 11 { assert LatinCapitals[11] == 'L' && LatinSmalls[11] == 'l'; }
    else if i == 12 { assert LatinCapitals[12] == 'M' && LatinSmalls[12] == 'm'; }
  }

  lemma {:induction false} LatinHighAt(i: nat)
    requires 13 <= i < |LatinCapitals|
    ensures LatinCapitals[i] as int == 'A' as int + i && LatinSmalls[i] as int == 'a' as int + i
  {
    if i == 13 { assert LatinCapitals[13] == 'N' && LatinSmalls[13] == 'n'; }
    else if i == 14 { assert LatinCapitals[14] == 'O' && LatinSmalls[14] == 'o'; }
    else if i == 15 { assert LatinCapitals[15] == 'P' && LatinSmalls[15] == 'p'; }
    else if i == 16 { assert LatinCapitals[16] == 'Q' && LatinSmalls[16] == 'q'; }
    else if i == 17 { assert LatinCapitals[17] == 'R' && LatinSmalls[17] == 'r'; }
    else if i == 18 { assert LatinCapitals[18] == 'S' && LatinSmalls[18] == 's'; }
    else if i == 19 { assert LatinCapitals[19] == 'T' && LatinSmalls[19] == 't'; }
    else if i == 20 { assert LatinCapitals[20] == 'U' && LatinSmalls[20] == 'u'; }
    else if i == 21 { assert LatinCapitals[21] == 'V' && LatinSmalls[21] == 'v'; }
    else if i == 22 { assert LatinCapitals[22] == 'W' && LatinSmalls[22] == 'w'; }
    else if i == 23 { assert LatinCapitals[23] == 'X' && LatinSmalls[23] == 'x'; }
    else if i == 24 { assert LatinCapitals[24] == 'Y' && LatinSmalls[24] == 'y'; }
    else if i == 25 { assert LatinCapitals[25] == 'Z' && LatinSmalls[25] == 'z'; }
  }

  lemma {:induction false} CyrillicLowAt(i: nat)
    requires i < 16
    ensures CyrillicCapitals[i] as int == 'А' as int + i && CyrillicSmalls[i] as int == 'а' as int + i
  {
    if i == 0 { assert CyrillicCapitals[0] == 'А' && CyrillicSmalls[0] == 'а'; }
    else if i == 1 { assert CyrillicCapitals[1] == 'Б' && CyrillicSmalls[1] == 'б'; }
    else if i == 2 { assert CyrillicCapitals[2] == 'В' && CyrillicSmalls[2] == 'в'; }
    else if i == 3 { assert CyrillicCapitals[3] == 'Г' && CyrillicSmalls[3] == 'г'; }
    else if i == 4 { assert CyrillicCapitals[4] == 'Д' && CyrillicSmalls[4] == 'д'; }
    else if i == 5 { assert CyrillicCapitals[5] == 'Е' && CyrillicSmalls[5] == 'е'; }
    else if i == 6 { assert CyrillicCapitals[6] == 'Ж' && CyrillicSmalls[6] == 'ж'; }
    else if i == 7 { assert CyrillicCapitals[7] == 'З' && CyrillicSmalls[7] == 'з'; }
    else if i == 8 { assert CyrillicCapitals[8] == 'И' && CyrillicSmalls[8] == 'и'; }
    else if i == 9 { assert CyrillicCapitals[9] == 'Й' && CyrillicSmalls[9] == 'й'; }
    else if i == 10 { assert CyrillicCapitals[10] == 'К' && CyrillicSmalls[10] == 'к'; }
    else if i == 11 { assert CyrillicCapitals[11] == 'Л' && CyrillicSmalls[11] == 'л'; }
    else if i == 12 { assert CyrillicCapitals[12] == 'М' && CyrillicSmalls[12] == 'м'; }
    else if i == 13 { assert CyrillicCapitals[13] == 'Н' && CyrillicSmalls[13] == 'н'; }
    else if i == 14 { assert CyrillicCapitals[14] == 'О' && CyrillicSmalls[14] == 'о'; }
    else if i == 15 { assert CyrillicCapitals[15] == 'П' && CyrillicSmalls[15] == 'п'; }
  }

  lemma {:induction false} CyrillicHighAt(i: nat)
    requires 16 <= i < |CyrillicCapitals|
    ensures i < 32 ==> CyrillicCapitals[i] as int == 'А' as int + i && CyrillicSmalls[i] as int == 'а' as int + i
    ensures i == 32 ==> CyrillicCapitals[i] == 'Ё' && CyrillicSmalls[i] == 'ё'
  {
    if i == 16 { assert CyrillicCapitals[16] == 'Р' && CyrillicSmalls[16] == 'р'; }
    else if i == 17 { assert CyrillicCapitals[17] == 'С' && CyrillicSmalls[17] == 'с'; }
    else if i == 18 { assert CyrillicCapitals[18] == 'Т' && CyrillicSmalls[18] == 'т'; }
    else if i == 19 { assert CyrillicCapitals[19] == 'У' && CyrillicSmalls[19] == 'у'; }
    else if i == 20 { assert CyrillicCapitals[20] == 'Ф' && CyrillicSmalls[20] == 'ф'; }
    else if i == 21 { assert CyrillicCapitals[21] == 'Х' && CyrillicSmalls[21] == 'х'; }
    else if i == 22 { assert CyrillicCapitals[22] == 'Ц' && CyrillicSmalls[22] == 'ц'; }
    else if i == 23 { assert CyrillicCapitals[23] == 'Ч' && CyrillicSmalls[23] == 'ч'; }
    else if i == 24 { assert CyrillicCapitals[24] == 'Ш' && CyrillicSmalls[24] == 'ш'; }
    else if i == 25 { assert CyrillicCapitals[25] == 'Щ' && CyrillicSmalls[25] == 'щ'; }
    else if i == 26 { assert CyrillicCapitals[26] == 'Ъ' && CyrillicSmalls[26] == 'ъ'; }
    else if i == 27 { assert CyrillicCapitals[27] == 'Ы' && CyrillicSmalls[27] == 'ы'; }
    else if i == 28 { assert CyrillicCapitals[28] == 'Ь' && CyrillicSmalls[28] == 'ь'; }
    else if i == 29 { assert CyrillicCapitals[29] == 'Э' && CyrillicSmalls[29] == 'э'; }
    else if i == 30 { assert CyrillicCapitals[30] == 'Ю' && CyrillicSmalls[30] == 'ю'; }
    else if i == 31 { assert CyrillicCapitals[31] == 'Я' && CyrillicSmalls[31] == 'я'; }
    else if i == 32 { assert CyrillicCapitals[32] == 'Ё' && CyrillicSmalls[32] == 'ё'; }
  }

  /** Which letters sit at index `i` of the two alphabets. */
  lemma AlphabetAt(i: nat)
    requires i < |Capitals|
    ensures i < 26 ==> Capitals[i] as int == 'A' as int + i && Smalls[i] as int == 'a' as int + i
    ensures 26 <= i < 58 ==> Capitals[i] as int == 'А' as int + (i - 26) && Smalls[i] as int == 'а' as int + (i - 26)
    ensures i == 58 ==> Capitals[i] == 'Ё' && Smalls[i] == 'ё'
  {
    assert |LatinCapitals| == |LatinSmalls| == 26;
    if i < 26 {
      assert Capitals[i] == LatinCapitals[i] && Smalls[i] == LatinSmalls[i];
      if i < 13 {
        LatinLowAt(i);
      } else {
        LatinHighAt(i);
      }
    } else {
      assert Capitals[i] == CyrillicCapitals[i - 26] && Smalls[i] == CyrillicSmalls[i - 26];
      if i < 42 {
        CyrillicLowAt(i - 26);
      } else {
        CyrillicHighAt(i - 26);
      }
    }
  }

  /** Folding sends every capital of the two alphabets to its small letter. */
  lemma FoldFollowsAlphabets()
    ensures |Capitals| == |Smalls|
    ensures forall i | 0 <= i < |Capitals| :: Fold(Capitals[i]) == Smalls[i]
  {
    forall i | 0 <= i < |Capitals|
      ensures Fold(Capitals[i]) == Smalls[i]
    {
      AlphabetAt(i);
    }
  }

  /** The letters folding changes are exactly the capitals of the two alphabets. */
  lemma CapitalsAreUpper(c: char)
    ensures IsUpper(c) <==> c in Capitals
  {
    if IsUpper(c) {
      var i := if 'A' <= c <= 'Z' then c as int - 'A' as int
               else if 'А' <= c <= 'Я' then 26 + (c as int - 'А' as int)
               else 58;
      AlphabetAt(i);
      assert Capitals[i] == c;
    }
    if c in Capitals {
      var i :| 0 <= i < |Capitals| && Capitals[i] == c;
      AlphabetAt(i);
    }
  }

  /** Django's `icontains`: `query` occurs in `name` once both are case-folded. */
  predicate ContainsIgnoringCase(name: string, query: string): (b: bool)
    ensures b <==> exists i: nat | i + |query| <= |name| :: MatchesFoldedAt(name, i, query)
  {
    var r := Occurs(FoldAll(query), FoldAll(name));
    assert r ==> exists i: nat | i + |query| <= |name| :: MatchesFoldedAt(name, i, query) by {
      if r {
        var i: nat :| i <= |FoldAll(name)| && HasAt(FoldAll(name), i, FoldAll(query));
        forall k | 0 <= k < |query|
          ensures Fold(name[i + k]) == Fold(query[k])
        {
          assert FoldAll(name)[i..i + |query|][k] == FoldAll(name)[i + k];
        }
        assert MatchesFoldedAt(name, i, query);
      }
    }
    assert (exists i: nat | i + |query| <= |name| :: MatchesFoldedAt(name, i, query)) ==> r by {
      if exists i: nat | i + |query| <= |name| :: MatchesFoldedAt(name, i, query) {
        var i: nat :| i + |query| <= |name| && MatchesFoldedAt(name, i, query);
        assert FoldAll(name)[i..i + |query|] == FoldAll(query);
        assert HasAt(FoldAll(name), i, FoldAll(query));
      }
    }
    r
  }

  /** `query` matches `name` letter by letter from index `i`, ignoring case. */
  predicate MatchesFoldedAt(name: string, i: nat, query: string)
    requires i + |query| <= |name|
  {
    forall k | 0 <= k < |query| :: Fold(name[i + k]) == Fold(query[k])
  }
}

=== FILE: wrappers.dfy ===
/** Optional values, used for nullable columns and for "no match" results. */
module Wrappers {

  datatype Option<+T> = None | Some(value: T)
}
